=== FILE: README.md ===
# Alerting API handlers, modelled in Dafny

This project models the HTTP handler layer of the dashboard alerting backend
(`backend/internal/alerting/api.go`). Each handler's decision logic is a pure
function, and the method for the dashboard-state read mirrors its loop. A
handler's inputs are its already-parsed request parameters. The database,
the permission check and the rule engine become function-typed parameters.
Multi-row reads take a sequence of rows, and each row either scanned
(`Scanned(fields)`) or failed (`ScanFailed`).

A handler's result is an `Outcome`:

- `Success(payload)` is status 200.
- `BadRequest(body)` is status 400.
- `Forbidden` is status 403.
- `InternalError` is status 500.
- `NoBody` means the handler returned without writing a response.
- `Panic` means the Go code panics: a nil row cursor, or an index into an empty slice.

The channel mutations also report the one SQL statement they issue, as a `Write`, so that a rejected request can be shown to issue no statement.

Modules:

- `Outcomes`: Option, Result, Json, Bytes, the error bodies and `Outcome`.
- `Models`: evaluation matches, rules, evaluation contexts, channels and extracted alerts.
- `Rows`: the row and query shapes, and the best-effort pipeline `KeepGood`.
- `Channels`: AddNotification, UpdateNotification, DeleteNotification and GetNotifications.
- `TestFlows`: TestNotification with its fixed context, and TestRule with its projection.
- `DashboardState`: GetDashboardState, written as a loop that aborts on the first bad row.
- `History`: GetHistory, its default limit and its millisecond conversion.

Two ways of handling a bad row are modelled. The history read and the channel listing skip a bad row (`Rows.KeepGoodSkipsFailedRow`). The dashboard-state read answers 500 as soon as any row fails to scan, and gives no partial map.

Behaviour worth noting:

- The history limit is defaulted only when it is exactly 0. Negative limits pass through unchanged.
- GetHistory never truncates the history itself. It relies on the SQL `limit`, which this model does not assume. It does sort the entries (`sort.Sort`), with a comparator the model leaves abstract.
- Deleting a channel whose lookup fails answers status 400 with the generic internal-error body.
- Add, update, delete and test-notification write no response body when they succeed.

## Model

| member | source | states |
|---|---|---|
| Channels.AddNotification | backend/internal/alerting/api.go:25-50 | a 400 iff team 0 and a 403 iff a non-editor of a non-zero team, both with no statement issued; otherwise exactly one insert under the URL team, answered with no body when the database accepts it and a 500 when it rejects it |
| Channels.AddIgnoresBodyIdentity | backend/internal/alerting/api.go:40-43 | the id and team carried in the request body do not influence what is inserted or answered |
| Channels.UpdateNotification | backend/internal/alerting/api.go:52-76 | id 0, team 0 or a URL team differing from the body's team is a 400; otherwise a non-editor of that team is a 403; a statement is issued iff both checks pass, it updates row `nf.Id`, and it is answered with no body when accepted and a 500 when rejected |
| Channels.UpdateOverwritesForeignChannel | backend/internal/alerting/api.go:56-70 | counterexample: an editor of team 1 updates channel 7 stored under team 2, which the checked version refuses |
| Channels.UpdateNotificationChecked | backend/internal/alerting/api.go:52-76 | corrected update: a statement is issued only for a channel whose stored owner is the URL team and only when the caller edits that team, answered with no body when accepted and a 500 when rejected; without a statement the answer is a 400 or a 403 |
| Channels.UpdateCheckedAgreesOnOwnedChannels | backend/internal/alerting/api.go:56-70 | when the stored channel does belong to the URL team, the corrected update behaves exactly as the original |
| Channels.DeleteNotification | backend/internal/alerting/api.go:78-103 | id 0 is a 400; a failed lookup is a 400 with the internal-error body; the permission check uses the stored channel's team; a delete is issued iff that team is editable, answered with no body when accepted and a 500 when rejected |
| Channels.ValidationPrecedesPermission | backend/internal/alerting/api.go:29-38 | for all three mutations, an invalid id gives the same 400 whatever the editor check answers |
| Channels.ToChannel | backend/internal/alerting/api.go:121-137 | a listed row becomes a channel iff its settings decode; the channel carries the requested team, the row's id, the row's name, type and four flags (default, disable-resolve-message, send-reminder, upload-image) exactly as scanned, and the decoded settings |
| Channels.GetNotifications | backend/internal/alerting/api.go:105-143 | team 0 is the only 400; any query error is a 500; otherwise the answer is the in-order listing of the kept rows, every row that scans and decodes is listed, every listed channel has the requested team and comes from a scanned row, and there are no more channels than rows |
| Channels.KeptChannelsInOrder | backend/internal/alerting/api.go:119-140 | the listing keeps row order: the channels of two consecutive row blocks are those of the first followed by those of the second |
| Rows.KeepGood | backend/internal/alerting/api.go:347-368 | best-effort pipeline: no more outputs than rows, every output converts from some scanned row, and every scanned row that converts contributes its value |
| Rows.KeepGoodAppend | backend/internal/alerting/api.go:120-140 | the pipeline distributes over concatenation, so it handles rows one at a time in order |
| Rows.KeepGoodSkipsFailedRow | backend/internal/alerting/api.go:354-358 | inserting a failed row anywhere changes nothing in the output |
| Rows.KeepGoodDropsNothing | backend/internal/alerting/api.go:122-134 | the output is as long as the input iff every row scans and converts |
| Models.NewEvalContext | backend/internal/alerting/api.go:174 | a fresh context holds the given rule, no results and neither flag; models.NewEvalContext itself is not part of this model (see Left out) |
| TestFlows.TestMatches | backend/internal/alerting/api.go:182-197 | the test notification carries exactly two firing matches, ("Low value", 100) then ("Higher Value", 200) |
| TestFlows.TestEvalContext | backend/internal/alerting/api.go:165-180 | the test notification's context is a test run outside debug mode, for dashboard 1 panel 1 in the alerting state, whose rule is named "Test notification" with the message "Someone is testing the alert notification within Grafana.", with a non-nil error and the two fixed matches |
| TestFlows.TestNotification | backend/internal/alerting/api.go:145-163 | a notifier build failure is a 400 with the fixed build-notifier-error message (the error text goes only to the log); otherwise the fixed context goes to exactly that one notifier, and the answer is no body iff delivery succeeds, else a 400 with the delivery message |
| TestFlows.TestNotificationSendsOnlyFixture | backend/internal/alerting/api.go:151-158 | the handler depends on the notification service only through its one call with the fixed context and the single built notifier |
| TestFlows.TestRuleContext | backend/internal/alerting/api.go:266-277 | the context handed to the engine is for the selected rule, has both the test-run and the debug flag set, and holds no results yet |
| TestFlows.FirstForPanel | backend/internal/alerting/api.go:227-228 | finds the least index whose alert is for the requested panel, and reports none iff no alert is |
| TestFlows.FirstForPanelIgnoresLater | backend/internal/alerting/api.go:227-261 | alerts after the first one of the panel, including later ones for the same panel, never affect the selection |
| TestFlows.SelectRule | backend/internal/alerting/api.go:218-235 | a rule is selected iff extraction succeeds, some alert is for the panel, and the first such alert converts; the rule is that conversion |
| TestFlows.NoFallbackToLaterAlerts | backend/internal/alerting/api.go:229-234 | a conversion error on the first alert of the panel is a 400 even if a later alert would convert |
| TestFlows.CopyMatches | backend/internal/alerting/api.go:252-254 | matches are copied one to one, in order, keeping metric and value and clearing the firing flag |
| TestFlows.CopyLogs | backend/internal/alerting/api.go:248-250 | debug log lines are copied one to one, in order, keeping message and data |
| TestFlows.ErrorText | backend/internal/alerting/api.go:244-246 | the error string is empty when the pass had no error and the error's message otherwise |
| TestFlows.Project | backend/internal/alerting/api.go:238-256 | panics iff the pass produced no match and succeeds otherwise; firing is the first match's flag, state is the rule's state after the pass, conditionEvals and the duration string are carried, and matches and logs are copied in order |
| TestFlows.TestRule | backend/internal/alerting/api.go:214-264 | a 400 iff no rule is selected; otherwise the response is the projection of the engine's evaluation of the test context for the selected rule |
| TestFlows.TestRulePanicsWithoutMatches | backend/internal/alerting/api.go:239 | as written, a selected rule whose evaluation yields no match makes the handler panic; the fixed version answers not-firing instead |
| TestFlows.ProjectFixed | backend/internal/alerting/api.go:238-256 | corrected projection: never panics, firing iff a first match exists and fires; state, conditionEvals, duration, error text, copied matches and copied logs are carried with or without a match; identical to the original whenever there is a match |
| TestFlows.TestRuleFixed | backend/internal/alerting/api.go:214-264 | corrected handler: always a success or a 400, a 400 iff no rule is selected, and equal to the original whenever the original does not panic |
| DashboardState.LastStatesAreLast | backend/internal/alerting/api.go:294-305 | writing the rows into the map in order leaves exactly the panels of the scanned rows, each with the state of its last row |
| DashboardState.GetDashboardState | backend/internal/alerting/api.go:279-308 | dashboard 0 writes no response; a query error other than no-rows is a 500; no-rows panics on the nil cursor; a 500 iff some row fails to scan; otherwise each panel maps to the state of its last row |
| History.EffectiveLimit | backend/internal/alerting/api.go:320-322 | the query limit is 50 iff the request's limit is 0 or 50; any other limit, negative ones included, is used unchanged |
| History.UnixMillis | backend/internal/alerting/api.go:366 | nanoseconds to milliseconds truncating toward zero: the product with 1e6 lies within one millisecond of the input, on the side of zero |
| History.UnixMillisTruncates | backend/internal/alerting/api.go:366 | the conversion equals floor division iff the time is non-negative or a whole millisecond, and it commutes with negation |
| History.ToHistory | backend/internal/alerting/api.go:348-366 | a scanned row becomes an entry iff its matches decode; the entry carries the requested dashboard and panel, the row's id and state, the decoded matches and the converted time |
| History.KeptHistoryStamped | backend/internal/alerting/api.go:347-368 | every kept entry has the requested ids and comes from a scanned row with the same id, state and converted time |
| History.GetHistory | backend/internal/alerting/api.go:310-373 | a 400 iff an id is 0 or the type is not "panel"; the query runs with the effective limit; a query error other than no-rows is a 500; no-rows is an empty success; otherwise the answer is a permutation of the kept entries, all stamped, and no longer than the rows |
| History.ZeroLimitIsDefault | backend/internal/alerting/api.go:320-330 | a request with limit 0 gets the same answer as one with limit 50 |
| History.RejectionIgnoresDatabase | backend/internal/alerting/api.go:315-334 | a request with a zero id or another type gets a 400 whatever the database holds |
| History.NoGoodRowIsLost | backend/internal/alerting/api.go:347-371 | every row that scans and decodes appears, as its entry, in the sorted response |

## Left out

- Request binding, JSON encoding of responses and i18n message catalogs. Only the status and the kind of error body are kept.
- `strconv.ParseInt` edge cases. Ids and limits are plain integers that are already parsed, and a parse failure is just the value 0.
- 64-bit widths. Ids and limits are unbounded integers. `UnixMillis` writes out Go's truncating division, and the 64-bit range of `UnixNano` is not modelled.
- `session.CurrentUserId` and `time.Now`. They are the `user` and `now` parameters.
- `acl.IsTeamEditor` is the `isEditor` parameter. It is a foreign call evaluated against the request's session.
- The SQL text, and whether the database honours `order by` and `limit`. The database is the `exec`/`query`/`lookup` parameters.
- `nf.Settings.Encode()`. Its error is ignored in the source. The statement carries the decoded settings.
- DashAlertExtractor, NewRuleFromDBAlert, the evaluation handler with SetNewStates, InitNotifier, the notification service and the history sort comparator. They are not part of this model. They appear only as uninterpreted parameters, and nothing is stated about their ordering, state transitions or fan-out.
- `models.NewEvalContext` is not part of this model. It is taken to give a context with no results and both flags off.
- `TimeMs` formatting and `null.Float` values. The duration string is the uninterpreted `formatMs`, and match values are carried without arithmetic.
- nil versus empty slices. An omitted `matches`/`logs` field and an empty one are both the empty sequence.
- Logging through `logger`. It has no effect on responses.
- Gin's panic recovery. A panic is the `Panic` outcome, whatever response a recovery middleware might then write.

## Findings

| source | as written | input that shows it | evidently intended | confidence | as-written member | corrected member |
|---|---|---|---|---|---|---|
| backend/internal/alerting/api.go:57-62 | the permission check uses the team named in the request body and URL; the stored owner of `nf.Id` is never consulted | URL team 1, body `{Id: 7, TeamId: 1}`, channel 7 stored under team 2, caller edits team 1 only: the update of channel 7 is issued | check that the stored channel belongs to the URL team before updating, as DeleteNotification looks the channel up | medium, not executed | Channels.UpdateOverwritesForeignChannel | Channels.UpdateNotificationChecked |
| backend/internal/alerting/api.go:239 | `res.EvalMatches[0].Firing` indexes the first match unconditionally | a panel whose rule evaluates to no match (e.g. a non-firing condition): the index panics | answer with `firing` false when there is no match | medium, not executed | TestFlows.TestRulePanicsWithoutMatches | TestFlows.TestRuleFixed |

=== FILE: channels.dfy ===
/** The notification-channel handlers: add, update, delete and list.

    Each mutation validates its identifiers first, then asks the team-editor
    check, and only then issues one database statement. The handler's result
    is the response it writes together with the statement it issued, if any.

    Collaborators are parameters:
    - `isEditor(team)`: whether the current session may edit `team`;
    - `exec(w)`: whether the database accepted statement `w`;
    - `lookup(id)`: the stored channel with that id, `None` when the lookup errs;
    - `decode(bytes)`: the settings JSON decoder, `None` on a decode error.
 */
module Channels {
  import opened Outcomes
  import opened Models
  import opened Rows

  /** The one statement a mutation handler issues. */
  datatype Write =
    | Insert(teamId: int, spec: ChannelSpec, createdBy: int, at: int)
    | Update(id: int, spec: ChannelSpec, at: int)
    | Delete(id: int)

  /** The response a mutation writes and the statement it issued. */
  datatype Handled = Handled(outcome: Outcome<()>, write: Option<Write>)

  /** A rejected request: the response, and no statement issued. */
  function Rejected(o: Outcome<()>): Handled {
    Handled(o, None)
  }

  /** Issue `w`; a database error becomes a 500, success writes no body. */
  function Issue(w: Write, exec: Write -> bool): Handled {
    Handled(if exec(w) then NoBody else InternalError, Some(w))
  }

  /** AddNotification: the channel is inserted under the team of the URL;
      the body's own id and team are ignored. */
  function AddNotification(teamId: int, nf: Notification, isEditor: int -> bool,
                           user: int, now: int, exec: Write -> bool): (h: Handled)
    ensures teamId == 0 ==> h == Rejected(BadRequest(BadRequestData))
    ensures teamId != 0 && !isEditor(teamId) ==> h == Rejected(Forbidden)
    ensures h.outcome.BadRequest? <==> teamId == 0
    ensures h.outcome == Forbidden <==> teamId != 0 && !isEditor(teamId)
    ensures h.write.Some? <==> teamId != 0 && isEditor(teamId)
    ensures h.write.Some? ==> h.write.value == Insert(teamId, nf.spec, user, now)
    ensures h.write.Some? ==> h.outcome == (if exec(h.write.value) then NoBody else InternalError)
  {
    if teamId == 0 then Rejected(BadRequest(BadRequestData))
    else if !isEditor(teamId) then Rejected(Forbidden)
    else Issue(Insert(teamId, nf.spec, user, now), exec)
  }

  /** UpdateNotification as written: the URL team must equal the team the
      body claims, and the permission check is made against that team. The
      stored owner of `nf.id` is never consulted. */
  function UpdateNotification(teamId: int, nf: Notification, isEditor: int -> bool,
                              now: int, exec: Write -> bool): (h: Handled)
    ensures nf.id == 0 || teamId == 0 || teamId != nf.teamId ==> h == Rejected(BadRequest(BadRequestData))
    ensures h.outcome == Forbidden <==> nf.id != 0 && teamId != 0 && teamId == nf.teamId && !isEditor(teamId)
    ensures h.write.Some? <==> nf.id != 0 && teamId != 0 && teamId == nf.teamId && isEditor(teamId)
    ensures h.write.Some? ==> h.write.value == Update(nf.id, nf.spec, now)
    ensures h.write.Some? ==> h.outcome == (if exec(h.write.value) then NoBody else InternalError)
  {
    if nf.id == 0 || teamId == 0 || teamId != nf.teamId then Rejected(BadRequest(BadRequestData))
    else if !isEditor(teamId) then Rejected(Forbidden)
    else Issue(Update(nf.id, nf.spec, now), exec)
  }

  /** UpdateNotification with the ownership check it evidently needs: the
      stored channel `nf.id` must belong to the URL team, looked up the way
      DeleteNotification looks it up. */
  function UpdateNotificationChecked(teamId: int, nf: Notification, lookup: int -> Option<Notification>,
                                     isEditor: int -> bool, now: int, exec: Write -> bool): (h: Handled)
    ensures nf.id == 0 || teamId == 0 || teamId != nf.teamId ==> h == Rejected(BadRequest(BadRequestData))
    ensures h.write.Some? ==>
              && h.write.value == Update(nf.id, nf.spec, now)
              && lookup(nf.id).Some? && lookup(nf.id).value.teamId == teamId
              && isEditor(lookup(nf.id).value.teamId)
    ensures h.write.Some? ==> h.outcome == (if exec(h.write.value) then NoBody else InternalError)
    ensures h.write.None? ==> h.outcome.BadRequest? || h.outcome == Forbidden
  {
    if nf.id == 0 || teamId == 0 || teamId != nf.teamId then Rejected(BadRequest(BadRequestData))
    else match lookup(nf.id)
      case None => Rejected(BadRequest(InternalFailure))
      case Some(stored) =>
        if stored.teamId != teamId then Rejected(BadRequest(BadRequestData))
        else if !isEditor(teamId) then Rejected(Forbidden)
        else Issue(Update(nf.id, nf.spec, now), exec)
  }

  /** DeleteNotification: the permission check is made against the team that
      owns the stored channel; a failed lookup answers 400 with the
      internal-error body. */
  function DeleteNotification(id: int, lookup: int -> Option<Notification>,
                              isEditor: int -> bool, exec: Write -> bool): (h: Handled)
    ensures id == 0 ==> h == Rejected(BadRequest(BadRequestData))
    ensures id != 0 && lookup(id).None? ==> h == Rejected(BadRequest(InternalFailure))
    ensures h.outcome == Forbidden <==> id != 0 && lookup(id).Some? && !isEditor(lookup(id).value.teamId)
    ensures h.write.Some? <==> id != 0 && lookup(id).Some? && isEditor(lookup(id).value.teamId)
    ensures h.write.Some? ==> h.write.value == Delete(id)
    ensures h.write.Some? ==> h.outcome == (if exec(h.write.value) then NoBody else InternalError)
  {
    if id == 0 then Rejected(BadRequest(BadRequestData))
    else match lookup(id)
      case None => Rejected(BadRequest(InternalFailure))
      case Some(stored) =>
        if !isEditor(stored.teamId) then Rejected(Forbidden)
        else Issue(Delete(id), exec)
  }

  /** The columns read by the channel listing; settings are still raw bytes. */
  datatype ChannelRow = ChannelRow(
    id: int,
    name: string,
    kind: string,
    isDefault: bool,
    disableResolveMessage: bool,
    sendReminder: bool,
    uploadImage: bool,
    rawSettings: Bytes)

  /** One listed row as a channel of `teamId`, or `None` when its settings do not decode. */
  function ToChannel(teamId: int, decode: Bytes -> Option<Json>, row: ChannelRow): (n: Option<Notification>)
    ensures n.Some? <==> decode(row.rawSettings).Some?
    ensures n.Some? ==> n.value.teamId == teamId && n.value.id == row.id
    ensures n.Some? ==>
              n.value.spec == ChannelSpec(row.name, row.kind, row.isDefault, row.disableResolveMessage,
                                          row.sendReminder, row.uploadImage, decode(row.rawSettings).value)
  {
    match decode(row.rawSettings)
    case None => None
    case Some(settings) =>
      Some(Notification(row.id, teamId,
        ChannelSpec(row.name, row.kind, row.isDefault, row.disableResolveMessage,
                    row.sendReminder, row.uploadImage, settings)))
  }

  /** The channels kept from `rows`, in row order. */
  function KeptChannels(teamId: int, decode: Bytes -> Option<Json>, rows: seq<Row<ChannelRow>>): seq<Notification> {
    KeepGood(rows, (row: ChannelRow) => ToChannel(teamId, decode, row))
  }

  /** GetNotifications: rejects team 0, answers 500 on any query error, and
      otherwise lists every row that scans and decodes, stamped with the
      requested team; the rest are skipped. */
  function GetNotifications(teamId: int, q: QueryResult<ChannelRow>, decode: Bytes -> Option<Json>)
    : (r: Outcome<seq<Notification>>)
    ensures r.BadRequest? <==> teamId == 0
    ensures r.BadRequest? ==> r.body == BadRequestData
    ensures teamId != 0 && !q.Rows? ==> r == InternalError
    ensures teamId != 0 && q.Rows? ==> r == Success(KeptChannels(teamId, decode, q.rows))
    ensures teamId != 0 && q.Rows? ==> r.Success? && |r.payload| <= |q.rows|
    ensures r.Success? ==> forall k :: 0 <= k < |r.payload| ==> r.payload[k].teamId == teamId
    ensures r.Success? ==> forall n :: n in r.payload ==>
              exists i :: 0 <= i < |q.rows| && q.rows[i].Scanned? && q.rows[i].fields.id == n.id
    ensures r.Success? ==> forall i ::
              (0 <= i < |q.rows| && q.rows[i].Scanned? && decode(q.rows[i].fields.rawSettings).Some?) ==>
              ToChannel(teamId, decode, q.rows[i].fields).value in r.payload
  {
    if teamId == 0 then BadRequest(BadRequestData)
    else match q
      case Rows(rows) =>
        var kept := KeptChannels(teamId, decode, rows);
        assert forall n :: n in kept ==> n.teamId == teamId && exists i :: 0 <= i < |rows| && rows[i].Scanned? && rows[i].fields.id == n.id by {
          forall n | n in kept
            ensures n.teamId == teamId && exists i :: 0 <= i < |rows| && rows[i].Scanned? && rows[i].fields.id == n.id
          {
            var i :| 0 <= i < |rows| && Converts(rows[i], (row: ChannelRow) => ToChannel(teamId, decode, row), n);
          }
        }
        Success(kept)
      case _ => InternalError
  }

  /** The listing keeps row order: the channels of `a + b` are those of `a`
      followed by those of `b`. */
  lemma KeptChannelsInOrder(teamId: int, decode: Bytes -> Option<Json>, a: seq<Row<ChannelRow>>, b: seq<Row<ChannelRow>>)
    ensures KeptChannels(teamId, decode, a + b) == KeptChannels(teamId, decode, a) + KeptChannels(teamId, decode, b)
  {
    KeepGoodAppend(a, b, (row: ChannelRow) => ToChannel(teamId, decode, row));
  }

  /** Identifiers are validated before the permission check: an invalid
      request gets the same 400 whatever the editor check would say, and no
      statement is issued. */
  lemma ValidationPrecedesPermission(teamId: int, id: int, nf: Notification, lookup: int -> Option<Notification>,
                                     e1: int -> bool, e2: int -> bool, user: int, now: int, exec: Write -> bool)
    ensures teamId == 0 ==>
      AddNotification(teamId, nf, e1, user, now, exec) == AddNotification(teamId, nf, e2, user, now, exec)
    ensures nf.id == 0 || teamId == 0 || teamId != nf.teamId ==>
      UpdateNotification(teamId, nf, e1, now, exec) == UpdateNotification(teamId, nf, e2, now, exec)
    ensures id == 0 || lookup(id).None? ==>
      DeleteNotification(id, lookup, e1, exec) == DeleteNotification(id, lookup, e2, exec)
  {
  }

  /** AddNotification files the channel under the URL team whatever id and
      team the request body carries. */
  lemma AddIgnoresBodyIdentity(teamId: int, nf1: Notification, nf2: Notification, isEditor: int -> bool,
                               user: int, now: int, exec: Write -> bool)
    requires nf1.spec == nf2.spec
    ensures AddNotification(teamId, nf1, isEditor, user, now, exec) == AddNotification(teamId, nf2, isEditor, user, now, exec)
  {
  }

  /** As written, UpdateNotification lets an editor of team 1 overwrite
      channel 7, which is stored under team 2: the body just claims team 1. */
  lemma UpdateOverwritesForeignChannel()
    ensures var spec := ChannelSpec("x", "email", false, false, false, false, Json("{}"));
            var stored := (id: int) => if id == 7 then Some(Notification(7, 2, spec)) else None;
            var editor := (team: int) => team == 1;
            && UpdateNotification(1, Notification(7, 1, spec), editor, 0, (w: Write) => true).write == Some(Update(7, spec, 0))
            && stored(7).value.teamId == 2 && !editor(2)
            && UpdateNotificationChecked(1, Notification(7, 1, spec), stored, editor, 0, (w: Write) => true).write.None?
  {
  }

  /** With the ownership check, the corrected update agrees with the
      original whenever the stored channel does belong to the URL team. */
  lemma UpdateCheckedAgreesOnOwnedChannels(teamId: int, nf: Notification, lookup: int -> Option<Notification>,
                                           isEditor: int -> bool, now: int, exec: Write -> bool)
    requires nf.id != 0 && lookup(nf.id).Some? && lookup(nf.id).value.teamId == teamId
    ensures UpdateNotificationChecked(teamId, nf, lookup, isEditor, now, exec)
         == UpdateNotification(teamId, nf, isEditor, now, exec)
  {
  }
}

=== FILE: dashboard_state.dfy ===
/** GetDashboardState: the current alert state of every panel of one
    dashboard, read row by row into a map from panel id to state.

    Unlike the listing reads, this read is all-or-nothing: one row that fails
    to scan turns the whole answer into a 500. A later row for the same panel
    overwrites an earlier one.
 */
module DashboardState {
  import opened Outcomes
  import opened Rows

  datatype StateRow = StateRow(panelId: int, state: string)

  /** `row` scanned and is about panel `p`. */
  predicate HasPanel(row: Row<StateRow>, p: int) {
    row.Scanned? && row.fields.panelId == p
  }

  /** The map obtained by writing the rows into an empty map in order,
      ignoring rows that failed. */
  function LastStates(rows: seq<Row<StateRow>>): map<int, string> {
    if |rows| == 0 then map[]
    else
      var m := LastStates(rows[..|rows| - 1]);
      match rows[|rows| - 1]
      case ScanFailed => m
      case Scanned(r) => m[r.panelId := r.state]
  }

  /** `m` holds exactly the panels of the scanned rows, each with the state
      of the last scanned row about it. */
  ghost predicate IsLastStateMap(rows: seq<Row<StateRow>>, m: map<int, string>) {
    && (forall p :: p in m <==> exists i :: 0 <= i < |rows| && HasPanel(rows[i], p))
    && (forall p :: p in m ==>
          exists i :: 0 <= i < |rows| && HasPanel(rows[i], p) && rows[i].fields.state == m[p]
                       && forall j :: i < j < |rows| ==> !HasPanel(rows[j], p))
  }

  /** Writing the rows in order leaves each panel with its last state. */
  lemma {:induction false} LastStatesAreLast(rows: seq<Row<StateRow>>)
    ensures IsLastStateMap(rows, LastStates(rows))
  {
    if |rows| > 0 {
      var n := |rows| - 1;
      var init := rows[..n];
      LastStatesAreLast(init);
      var m := LastStates(rows);
      assert forall i :: 0 <= i < n ==> init[i] == rows[i];
      forall p | p in m
        ensures exists i :: 0 <= i < |rows| && HasPanel(rows[i], p) && rows[i].fields.state == m[p]
                            && forall j :: i < j < |rows| ==> !HasPanel(rows[j], p)
      {
        if !HasPanel(rows[n], p) {
          var i :| 0 <= i < n && HasPanel(init[i], p) && init[i].fields.state == LastStates(init)[p]
                   && forall j :: i < j < n ==> !HasPanel(init[j], p);
          assert HasPanel(rows[i], p);
        } else {
          assert HasPanel(rows[n], p);
        }
      }
      forall p | exists i :: 0 <= i < |rows| && HasPanel(rows[i], p)
        ensures p in m
      {
        var i :| 0 <= i < |rows| && HasPanel(rows[i], p);
        if i < n {
          assert HasPanel(init[i], p);
        }
      }
    }
  }

  /** GetDashboardState as written. Dashboard 0 returns without writing a
      response. A query error other than `sql.ErrNoRows` answers 500;
      `sql.ErrNoRows` leaves the row cursor nil, and the first `rows.Next()`
      dereferences it. */
  method GetDashboardState(dashId: int, q: QueryResult<StateRow>) returns (r: Outcome<map<int, string>>)
    ensures r == NoBody <==> dashId == 0
    ensures dashId != 0 && q.QueryFailed? ==> r == InternalError
    ensures dashId != 0 && q.NoRowsError? ==> r == Panic
    ensures dashId != 0 && q.Rows? ==>
              (r == InternalError <==> exists i :: 0 <= i < |q.rows| && q.rows[i].ScanFailed?)
    ensures dashId != 0 && q.Rows? ==> r.Success? || r == InternalError
    ensures r.Success? ==> q.Rows? && IsLastStateMap(q.rows, r.payload)
  {
    if dashId == 0 {
      return NoBody;
    }
    match q {
      case QueryFailed =>
        return InternalError;
      case NoRowsError =>
        return Panic;
      case Rows(rows) =>
        var res: map<int, string> := map[];
        var i := 0;
        while i < |rows|
          invariant 0 <= i <= |rows|
          invariant forall k :: 0 <= k < i ==> rows[k].Scanned?
          invariant res == LastStates(rows[..i])
        {
          match rows[i] {
            case ScanFailed =>
              return InternalError;
            case Scanned(row) =>
              assert rows[..i + 1][..i] == rows[..i];
              res := res[row.panelId := row.state];
          }
          i := i + 1;
        }
        assert rows[..|rows|] == rows;
        LastStatesAreLast(rows);
        return Success(res);
    }
  }
}

=== FILE: history.dfy ===
/** GetHistory: the stored evaluation outcomes of one panel.

    The request is validated (both ids non-zero, then the `type`), the limit
    defaults to 50 when it is 0, the query's rows are read best-effort
    (rows that fail to scan or whose matches do not decode are skipped), each
    kept entry is stamped with the requested dashboard and panel, and the list
    is finally sorted with a comparator that is not part of this model.
 */
module History {
  import opened Outcomes
  import opened Models
  import opened Rows

  const DefaultLimit: int := 50
  const NanosPerMilli: int := 1_000_000

  datatype HistoryRequest = HistoryRequest(kind: string, dashId: int, panelId: int, limit: int)

  /** The parameters the history query is run with. */
  datatype HistoryQuery = HistoryQuery(dashId: int, panelId: int, limit: int)

  /** The columns read per history row; `createdNanos` is the creation time in Unix nanoseconds. */
  datatype HistoryRow = HistoryRow(id: int, state: string, matches: Bytes, createdNanos: int)

  /** One history entry of the response; `time` is in Unix milliseconds. */
  datatype AlertHistory = AlertHistory(
    id: int,
    dashboardId: int,
    panelId: int,
    state: string,
    matches: seq<EvalMatch>,
    time: int)

  /** The limit the query runs with: 0 means the default, every other value
      (negative ones included) is used as given. */
  function EffectiveLimit(limit: int): (l: int)
    ensures l == DefaultLimit <==> limit == 0 || limit == DefaultLimit
    ensures limit != 0 ==> l == limit
  {
    if limit == 0 then DefaultLimit else limit
  }

  /** Unix nanoseconds to milliseconds with a 64-bit integer division, which
      truncates toward zero (a negative time rounds up, not down). */
  function UnixMillis(nanos: int): (ms: int)
    ensures nanos >= 0 ==> ms >= 0 && ms * NanosPerMilli <= nanos < ms * NanosPerMilli + NanosPerMilli
    ensures nanos < 0 ==> ms <= 0 && ms * NanosPerMilli - NanosPerMilli < nanos <= ms * NanosPerMilli
  {
    if nanos >= 0 then nanos / NanosPerMilli else -((-nanos) / NanosPerMilli)
  }

  /** Truncation and floor division part ways exactly on negative times that
      are not whole milliseconds. */
  lemma UnixMillisTruncates(nanos: int)
    ensures UnixMillis(nanos) == nanos / NanosPerMilli <==> nanos >= 0 || nanos % NanosPerMilli == 0
    ensures UnixMillis(-nanos) == -UnixMillis(nanos)
  {
  }

  /** One scanned row as an entry of the requested panel, or `None` when its
      matches do not decode. */
  function ToHistory(dashId: int, panelId: int, decode: Bytes -> Option<seq<EvalMatch>>, row: HistoryRow)
    : (h: Option<AlertHistory>)
    ensures h.Some? <==> decode(row.matches).Some?
    ensures h.Some? ==> h.value.dashboardId == dashId && h.value.panelId == panelId
    ensures h.Some? ==> h.value.id == row.id && h.value.state == row.state
                        && h.value.matches == decode(row.matches).value
                        && h.value.time == UnixMillis(row.createdNanos)
  {
    match decode(row.matches)
    case None => None
    case Some(matches) => Some(AlertHistory(row.id, dashId, panelId, row.state, matches, UnixMillis(row.createdNanos)))
  }

  /** The entries kept from `rows`, in row order, before sorting. */
  function KeptHistory(dashId: int, panelId: int, decode: Bytes -> Option<seq<EvalMatch>>, rows: seq<Row<HistoryRow>>)
    : seq<AlertHistory>
  {
    KeepGood(rows, (row: HistoryRow) => ToHistory(dashId, panelId, decode, row))
  }

  /** Every kept entry carries the requested ids and comes from a scanned row
      with the same id, state and converted time. */
  lemma KeptHistoryStamped(dashId: int, panelId: int, decode: Bytes -> Option<seq<EvalMatch>>, rows: seq<Row<HistoryRow>>)
    ensures forall h :: h in KeptHistory(dashId, panelId, decode, rows) ==>
              && h.dashboardId == dashId && h.panelId == panelId
              && exists i :: 0 <= i < |rows| && rows[i].Scanned? && rows[i].fields.id == h.id
                             && rows[i].fields.state == h.state && h.time == UnixMillis(rows[i].fields.createdNanos)
  {
    var conv := (row: HistoryRow) => ToHistory(dashId, panelId, decode, row);
    forall h | h in KeptHistory(dashId, panelId, decode, rows)
      ensures && h.dashboardId == dashId && h.panelId == panelId
              && exists i :: 0 <= i < |rows| && rows[i].Scanned? && rows[i].fields.id == h.id
                             && rows[i].fields.state == h.state && h.time == UnixMillis(rows[i].fields.createdNanos)
    {
      var i :| 0 <= i < |rows| && Converts(rows[i], conv, h);
    }
  }

  /** A sort: whatever order it picks, it only rearranges. */
  ghost predicate IsPermuting(sort: seq<AlertHistory> -> seq<AlertHistory>) {
    forall s :: multiset(sort(s)) == multiset(s)
  }

  /** GetHistory as written. */
  function GetHistory(req: HistoryRequest, query: HistoryQuery -> QueryResult<HistoryRow>,
                      decode: Bytes -> Option<seq<EvalMatch>>, sort: seq<AlertHistory> -> seq<AlertHistory>)
    : (r: Outcome<seq<AlertHistory>>)
    requires IsPermuting(sort)
    ensures r.BadRequest? <==> req.dashId == 0 || req.panelId == 0 || req.kind != "panel"
    ensures r.BadRequest? ==> r.body == BadRequestData
    ensures !r.BadRequest? ==>
      var q := query(HistoryQuery(req.dashId, req.panelId, EffectiveLimit(req.limit)));
      && (r == InternalError <==> q.QueryFailed?)
      && (q.NoRowsError? ==> r == Success([]))
      && (q.Rows? ==>
            && r.Success?
            && |r.payload| <= |q.rows|
            && multiset(r.payload) == multiset(KeptHistory(req.dashId, req.panelId, decode, q.rows))
            && forall h :: h in r.payload ==> h.dashboardId == req.dashId && h.panelId == req.panelId)
  {
    if req.dashId == 0 || req.panelId == 0 then BadRequest(BadRequestData)
    else if req.kind != "panel" then BadRequest(BadRequestData)
    else
      match query(HistoryQuery(req.dashId, req.panelId, EffectiveLimit(req.limit)))
      case QueryFailed => InternalError
      case NoRowsError => Success([])
      case Rows(rows) =>
        var kept := KeptHistory(req.dashId, req.panelId, decode, rows);
        var sorted := sort(kept);
        KeptHistoryStamped(req.dashId, req.panelId, decode, rows);
        assert multiset(sorted) == multiset(kept);
        assert forall h :: h in sorted ==> h in kept by {
          forall h | h in sorted ensures h in kept {
            assert h in multiset(sorted);
          }
        }
        assert |sorted| == |multiset(sorted)|;
        Success(sorted)
  }

  /** A limit of 0 and an explicit limit of 50 are indistinguishable. */
  lemma ZeroLimitIsDefault(req: HistoryRequest, query: HistoryQuery -> QueryResult<HistoryRow>,
                           decode: Bytes -> Option<seq<EvalMatch>>, sort: seq<AlertHistory> -> seq<AlertHistory>)
    requires IsPermuting(sort)
    ensures GetHistory(req.(limit := 0), query, decode, sort) == GetHistory(req.(limit := DefaultLimit), query, decode, sort)
  {
  }

  /** A rejected request does not depend on what the database holds: the ids
      and the type are checked before any query. */
  lemma RejectionIgnoresDatabase(req: HistoryRequest, q1: HistoryQuery -> QueryResult<HistoryRow>,
                                 q2: HistoryQuery -> QueryResult<HistoryRow>,
                                 decode: Bytes -> Option<seq<EvalMatch>>, sort: seq<AlertHistory> -> seq<AlertHistory>)
    requires IsPermuting(sort)
    requires req.dashId == 0 || req.panelId == 0 || req.kind != "panel"
    ensures GetHistory(req, q1, decode, sort) == GetHistory(req, q2, decode, sort) == BadRequest(BadRequestData)
  {
  }

  /** Every entry that scans and decodes is in the response. */
  lemma NoGoodRowIsLost(req: HistoryRequest, query: HistoryQuery -> QueryResult<HistoryRow>,
                        decode: Bytes -> Option<seq<EvalMatch>>, sort: seq<AlertHistory> -> seq<AlertHistory>, i: int)
    requires IsPermuting(sort)
    requires req.dashId != 0 && req.panelId != 0 && req.kind == "panel"
    requires query(HistoryQuery(req.dashId, req.panelId, EffectiveLimit(req.limit))).Rows?
    requires var rows := query(HistoryQuery(req.dashId, req.panelId, EffectiveLimit(req.limit))).rows;
             0 <= i < |rows| && rows[i].Scanned? && decode(rows[i].fields.matches).Some?
    ensures var rows := query(HistoryQuery(req.dashId, req.panelId, EffectiveLimit(req.limit))).rows;
            ToHistory(req.dashId, req.panelId, decode, rows[i].fields).value in GetHistory(req, query, decode, sort).payload
  {
    var rows := query(HistoryQuery(req.dashId, req.panelId, EffectiveLimit(req.limit))).rows;
    var kept := KeptHistory(req.dashId, req.panelId, decode, rows);
    var h := ToHistory(req.dashId, req.panelId, decode, rows[i].fields).value;
    assert h in kept;
    assert h in multiset(kept);
    assert h in multiset(GetHistory(req, query, decode, sort).payload);
  }
}

=== FILE: models.dfy ===
/** The records the alerting handlers read and write: evaluation matches,
    rules, evaluation contexts, notification channels and extracted alerts.
    Only the fields the handlers touch are kept.
 */
module Models {
  import opened Outcomes

  /** A nullable floating-point sample value (`null.Float`). The number is
      carried, never computed with. */
  datatype NullFloat = Null | Float(x: real)

  /** One condition outcome. */
  datatype EvalMatch = EvalMatch(metric: string, value: NullFloat, firing: bool)

  datatype AlertState = Pending | Alerting | OK | Paused | NoData | ExecError

  /** One alert rule bound to a dashboard panel; its conditions are opaque. */
  datatype Rule = Rule(
    dashboardId: int,
    panelId: int,
    name: string,
    message: string,
    state: AlertState,
    conditions: seq<Json>)

  /** A debug log line of an evaluation pass. */
  datatype LogEntry = LogEntry(message: string, data: Json)

  /** The working state of one evaluation pass. */
  datatype EvalContext = EvalContext(
    rule: Rule,
    isTestRun: bool,
    isDebug: bool,
    error: Option<string>,
    matches: seq<EvalMatch>,
    logs: seq<LogEntry>,
    conditionEvals: string)

  /** A fresh evaluation context for `rule`: no results yet and neither flag set. */
  function NewEvalContext(rule: Rule): (ctx: EvalContext)
    ensures ctx.rule == rule
    ensures !ctx.isTestRun && !ctx.isDebug
    ensures ctx.error.None? && ctx.matches == [] && ctx.logs == []
  {
    EvalContext(rule, false, false, None, [], [], "")
  }

  /** The user-editable part of a notification channel. */
  datatype ChannelSpec = ChannelSpec(
    name: string,
    kind: string,
    isDefault: bool,
    disableResolveMessage: bool,
    sendReminder: bool,
    uploadImage: bool,
    settings: Json)

  /** A notification channel record (`models.AlertNotification`). */
  datatype Notification = Notification(id: int, teamId: int, spec: ChannelSpec)

  /** An alert definition extracted from a dashboard, keyed by its panel. */
  datatype Alert = Alert(panelId: int, definition: Json)
}

=== FILE: outcomes.dfy ===
/** Response and error-return shapes shared by every alerting handler.

    A handler either writes one JSON response (`c.JSON(status, body)`), returns
    without writing anything, or panics. `Outcome` names each of those cases;
    the status code is fixed by the constructor and the body of a failure is
    an `ErrorBody`.
 */
module Outcomes {

  /** Absent-or-present value, used for Go's `(value, err)` pairs whose error is dropped. */
  datatype Option<+T> = None | Some(value: T)

  /** Value-or-error, used for collaborators that return `(value, err)`. */
  datatype Result<+T, +E> = Ok(value: T) | Err(error: E)

  /** Bytes as read from a database column. */
  type Bytes = seq<bv8>

  /** A decoded JSON document (simplejson). Its structure is not inspected by
      the handlers, so it is kept as its text. */
  datatype Json = Json(text: string)

  /** The body of a non-200 response. */
  datatype ErrorBody =
    | BadRequestData          // the i18n "bad request data" message
    | InternalFailure         // the generic internal-error body
    | BuildNotifierError      // "error.buildNotifierError"
    | ErrorMessage(text: string)  // a raw error string, not translated

  /** What one handler invocation produces. A response the handler writes
      has the status noted beside its constructor. */
  datatype Outcome<+P> =
    | Success(payload: P)         // status 200 with a success body
    | BadRequest(body: ErrorBody) // status 400
    | Forbidden                   // status 403, "no permission"
    | InternalError               // status 500, internal-error body
    | NoBody                      // the handler returned without writing a response
    | Panic                       // a run-time panic (nil dereference, index out of range)
}

=== FILE: rows.dfy ===
/** Multi-row database reads as the handlers see them: a query either fails,
    reports "no rows", or yields rows one of which may fail to scan.

    `KeepGood` is the best-effort pipeline used by the channel listing and the
    history read: a row that fails to scan, or whose fields fail to convert,
    is skipped and the rest are kept in order.
 */
module Rows {
  import opened Outcomes

  /** One row: the scan either produced the fields or failed. */
  datatype Row<+R> = Scanned(fields: R) | ScanFailed

  /** What a multi-row query returns: rows, the `sql.ErrNoRows` error, or any other error. */
  datatype QueryResult<+R> = Rows(rows: seq<Row<R>>) | NoRowsError | QueryFailed

  /** `row` scanned and its fields convert to `t`. */
  predicate Converts<R, T(==)>(row: Row<R>, conv: R -> Option<T>, t: T) {
    row.Scanned? && conv(row.fields) == Some(t)
  }

  /** The converted values of the rows that scan and convert, in row order. */
  function KeepGood<R, T(==)>(rows: seq<Row<R>>, conv: R -> Option<T>): (kept: seq<T>)
    ensures |kept| <= |rows|
    ensures forall t :: t in kept ==> exists i :: 0 <= i < |rows| && Converts(rows[i], conv, t)
    ensures forall i :: 0 <= i < |rows| && rows[i].Scanned? && conv(rows[i].fields).Some? ==>
              conv(rows[i].fields).value in kept
  {
    if |rows| == 0 then []
    else
      var rest := KeepGood(rows[1..], conv);
      assert forall i :: 1 <= i < |rows| ==> rows[i] == rows[1..][i - 1];
      match rows[0]
      case ScanFailed => rest
      case Scanned(fields) =>
        match conv(fields)
        case None => rest
        case Some(t) => [t] + rest
  }

  /** The pipeline distributes over concatenation: rows are handled one at a
      time, left to right, so kept values keep their relative order. */
  lemma {:induction false} KeepGoodAppend<R, T>(a: seq<Row<R>>, b: seq<Row<R>>, conv: R -> Option<T>)
    ensures KeepGood(a + b, conv) == KeepGood(a, conv) + KeepGood(b, conv)
  {
    if |a| == 0 {
      assert a + b == b;
    } else {
      assert (a + b)[1..] == a[1..] + b;
      KeepGoodAppend(a[1..], b, conv);
    }
  }

  /** A failed row is skipped: it changes nothing about the rows around it. */
  lemma KeepGoodSkipsFailedRow<R, T>(a: seq<Row<R>>, b: seq<Row<R>>, conv: R -> Option<T>)
    ensures KeepGood(a + [ScanFailed] + b, conv) == KeepGood(a + b, conv)
  {
    KeepGoodAppend(a + [ScanFailed], b, conv);
    KeepGoodAppend(a, [ScanFailed], conv);
    KeepGoodAppend(a, b, conv);
    assert KeepGood([ScanFailed], conv) == KeepGood([], conv);
  }

  /** Every row scans and converts exactly when nothing is dropped. */
  lemma {:induction false} KeepGoodDropsNothing<R, T>(rows: seq<Row<R>>, conv: R -> Option<T>)
    ensures |KeepGood(rows, conv)| == |rows| <==>
      forall i :: 0 <= i < |rows| ==> rows[i].Scanned? && conv(rows[i].fields).Some?
  {
    if |rows| > 0 {
      KeepGoodDropsNothing(rows[1..], conv);
      assert forall i :: 1 <= i < |rows| ==> rows[i] == rows[1..][i - 1];
    }
  }
}

=== FILE: testflows.dfy ===
/** The two "test" handlers: TestNotification sends a fixed evaluation context
    through one freshly built notifier, and TestRule evaluates the alert of
    one panel of a posted dashboard and projects the result into a response.

    The rule engine is not part of this model; its four entry points are
    parameters bundled in `RuleEngine`.
 */
module TestFlows {
  import opened Outcomes
  import opened Models

  /** The fixed matches of a test notification, both firing. */
  function TestMatches(): (ms: seq<EvalMatch>)
    ensures |ms| == 2
    ensures forall k :: 0 <= k < |ms| ==> ms[k].firing
    ensures ms[0].metric == "Low value" && ms[0].value == Float(100.0)
    ensures ms[1].metric == "Higher Value" && ms[1].value == Float(200.0)
  {
    [EvalMatch("Low value", Float(100.0), true), EvalMatch("Higher Value", Float(200.0), true)]
  }

  /** The rule a test notification pretends to report on. */
  const TestRuleFixture: Rule :=
    Rule(1, 1, "Test notification",
         "Someone is testing the alert notification within Grafana.", Alerting, [])

  /** The evaluation context a test notification is sent with. */
  function TestEvalContext(): (ctx: EvalContext)
    ensures ctx.isTestRun && !ctx.isDebug
    ensures ctx.error == Some("This is only a test")
    ensures ctx.matches == TestMatches()
    ensures ctx.rule.dashboardId == 1 && ctx.rule.panelId == 1 && ctx.rule.state == Alerting
    ensures ctx.rule.name == "Test notification"
    ensures ctx.rule.message == "Someone is testing the alert notification within Grafana."
    ensures ctx.logs == []
  {
    NewEvalContext(TestRuleFixture).(isTestRun := true, error := Some("This is only a test"), matches := TestMatches())
  }

  /** TestNotification: a notifier that cannot be built answers 400 with the
      fixed build-notifier-error message, and the error itself is only
      logged; otherwise the fixed context is sent to exactly that one
      notifier, a delivery error answers 400 with its message, and success
      writes no body. `init` and `send` stand for InitNotifier and the
      notification service. */
  function TestNotification<N>(model: Notification, init: Notification -> Result<N, string>,
                               send: (EvalContext, seq<N>) -> Option<string>): (r: Outcome<()>)
    ensures init(model).Err? ==> r == BadRequest(BuildNotifierError)
    ensures init(model).Ok? ==>
      (r == NoBody <==> send(TestEvalContext(), [init(model).value]).None?)
    ensures init(model).Ok? && send(TestEvalContext(), [init(model).value]).Some? ==>
      r == BadRequest(ErrorMessage(send(TestEvalContext(), [init(model).value]).value))
    ensures r.BadRequest? || r == NoBody
  {
    match init(model)
    case Err(_) => BadRequest(BuildNotifierError)
    case Ok(notifier) =>
      match send(TestEvalContext(), [notifier])
      case Some(message) => BadRequest(ErrorMessage(message))
      case None => NoBody
  }

  /** The rule engine, left uninterpreted:
      - `extract`: the dashboard's alerts (DashAlertExtractor.GetAlerts);
      - `newRule`: NewRuleFromDBAlert;
      - `eval`: one evaluation pass followed by SetNewStates;
      - `formatMs`: the context's duration printed as milliseconds. */
  datatype RuleEngine = RuleEngine(
    extract: Json -> Result<seq<Alert>, string>,
    newRule: Alert -> Result<Rule, string>,
    eval: EvalContext -> EvalContext,
    formatMs: EvalContext -> string)

  datatype TestRuleRequest = TestRuleRequest(dashboard: Json, panelId: int)

  datatype TestResultLog = TestResultLog(message: string, data: Json)

  /** The response of TestRule (`AlertTestResult`). */
  datatype AlertTestResult = AlertTestResult(
    firing: bool,
    state: AlertState,
    conditionEvals: string,
    timeMs: string,
    error: string,
    matches: seq<EvalMatch>,
    logs: seq<TestResultLog>)

  /** The context testAlertRule hands to the engine: a test run in debug mode. */
  function TestRuleContext(rule: Rule): (ctx: EvalContext)
    ensures ctx.rule == rule && ctx.isTestRun && ctx.isDebug
    ensures ctx.error.None? && ctx.matches == [] && ctx.logs == []
  {
    NewEvalContext(rule).(isTestRun := true, isDebug := true)
  }

  /** The index of the first alert of panel `panelId`, if any. */
  function FirstForPanel(alerts: seq<Alert>, panelId: int): (i: Option<nat>)
    ensures i.None? <==> forall k :: 0 <= k < |alerts| ==> alerts[k].panelId != panelId
    ensures i.Some? ==> i.value < |alerts| && alerts[i.value].panelId == panelId
    ensures i.Some? ==> forall k :: 0 <= k < i.value ==> alerts[k].panelId != panelId
  {
    if |alerts| == 0 then None
    else if alerts[0].panelId == panelId then Some(0)
    else match FirstForPanel(alerts[1..], panelId)
      case None => None
      case Some(j) => Some(j + 1)
  }

  /** The rule TestRule evaluates: the first alert of the panel, converted;
      a conversion error is final, there is no fallback to later alerts. */
  function SelectRule(engine: RuleEngine, req: TestRuleRequest): (r: Option<Rule>)
    ensures r.Some? <==>
      && engine.extract(req.dashboard).Ok?
      && FirstForPanel(engine.extract(req.dashboard).value, req.panelId).Some?
      && engine.newRule(engine.extract(req.dashboard).value[FirstForPanel(engine.extract(req.dashboard).value, req.panelId).value]).Ok?
    ensures r.Some? ==>
      r.value == engine.newRule(engine.extract(req.dashboard).value[FirstForPanel(engine.extract(req.dashboard).value, req.panelId).value]).value
  {
    match engine.extract(req.dashboard)
    case Err(_) => None
    case Ok(alerts) =>
      match FirstForPanel(alerts, req.panelId)
      case None => None
      case Some(i) =>
        match engine.newRule(alerts[i])
        case Err(_) => None
        case Ok(rule) => Some(rule)
  }

  /** Copies of the matches carrying only metric and value. */
  function CopyMatches(ms: seq<EvalMatch>): (out: seq<EvalMatch>)
    ensures |out| == |ms|
    ensures forall k :: 0 <= k < |ms| ==> out[k] == EvalMatch(ms[k].metric, ms[k].value, false)
  {
    if |ms| == 0 then [] else [EvalMatch(ms[0].metric, ms[0].value, false)] + CopyMatches(ms[1..])
  }

  /** The debug log lines as response log lines. */
  function CopyLogs(logs: seq<LogEntry>): (out: seq<TestResultLog>)
    ensures |out| == |logs|
    ensures forall k :: 0 <= k < |logs| ==> out[k] == TestResultLog(logs[k].message, logs[k].data)
  {
    if |logs| == 0 then [] else [TestResultLog(logs[0].message, logs[0].data)] + CopyLogs(logs[1..])
  }

  /** The error string of the response: empty when the pass had no error. */
  function ErrorText(error: Option<string>): (s: string)
    ensures error.None? ==> s == ""
    ensures error.Some? ==> s == error.value
  {
    match error
    case None => ""
    case Some(message) => message
  }

  /** The response for an evaluated context, given its firing flag. */
  function Response(res: EvalContext, firing: bool, formatMs: EvalContext -> string): AlertTestResult {
    AlertTestResult(firing, res.rule.state, res.conditionEvals, formatMs(res),
                    ErrorText(res.error), CopyMatches(res.matches), CopyLogs(res.logs))
  }

  /** The projection as written: the firing flag is read from the first
      match, which panics when the pass produced none. */
  function Project(res: EvalContext, formatMs: EvalContext -> string): (r: Outcome<AlertTestResult>)
    ensures r == Panic <==> |res.matches| == 0
    ensures |res.matches| > 0 ==> r.Success?
    ensures r.Success? ==> r.payload.firing == res.matches[0].firing
    ensures r.Success? ==> r.payload.state == res.rule.state && r.payload.timeMs == formatMs(res)
    ensures r.Success? ==> r.payload.conditionEvals == res.conditionEvals
    ensures r.Success? ==> |r.payload.matches| == |res.matches| && |r.payload.logs| == |res.logs|
    ensures r.Success? ==> forall k :: 0 <= k < |res.matches| ==>
              r.payload.matches[k].metric == res.matches[k].metric
              && r.payload.matches[k].value == res.matches[k].value
              && !r.payload.matches[k].firing
    ensures r.Success? ==> forall k :: 0 <= k < |res.logs| ==>
              r.payload.logs[k].message == res.logs[k].message && r.payload.logs[k].data == res.logs[k].data
    ensures r.Success? && res.error.None? ==> r.payload.error == ""
    ensures r.Success? && res.error.Some? ==> r.payload.error == res.error.value
  {
    if |res.matches| == 0 then Panic
    else Success(Response(res, res.matches[0].firing, formatMs))
  }

  /** The projection without the panic: no match means not firing. */
  function ProjectFixed(res: EvalContext, formatMs: EvalContext -> string): (r: Outcome<AlertTestResult>)
    ensures r.Success?
    ensures r.payload.firing <==> |res.matches| > 0 && res.matches[0].firing
    ensures r.payload.state == res.rule.state && r.payload.conditionEvals == res.conditionEvals
    ensures r.payload.timeMs == formatMs(res) && r.payload.error == ErrorText(res.error)
    ensures r.payload.matches == CopyMatches(res.matches) && r.payload.logs == CopyLogs(res.logs)
    ensures |res.matches| > 0 ==> r == Project(res, formatMs)
  {
    Success(Response(res, |res.matches| > 0 && res.matches[0].firing, formatMs))
  }

  /** TestNotification looks at the notification service only through the
      one call it makes: the fixed context sent to the single built notifier. */
  lemma TestNotificationSendsOnlyFixture<N>(model: Notification, init: Notification -> Result<N, string>,
                                            send1: (EvalContext, seq<N>) -> Option<string>,
                                            send2: (EvalContext, seq<N>) -> Option<string>)
    requires init(model).Ok? ==>
      send1(TestEvalContext(), [init(model).value]) == send2(TestEvalContext(), [init(model).value])
    ensures TestNotification(model, init, send1) == TestNotification(model, init, send2)
  {
  }

  /** TestRule as written. */
  function TestRule(engine: RuleEngine, req: TestRuleRequest): (r: Outcome<AlertTestResult>)
    ensures SelectRule(engine, req).None? <==> r == BadRequest(BadRequestData)
    ensures SelectRule(engine, req).Some? ==>
      var res := engine.eval(TestRuleContext(SelectRule(engine, req).value));
      r == Project(res, engine.formatMs)
  {
    match SelectRule(engine, req)
    case None => BadRequest(BadRequestData)
    case Some(rule) => Project(engine.eval(TestRuleContext(rule)), engine.formatMs)
  }

  /** TestRule with the corrected projection. */
  function TestRuleFixed(engine: RuleEngine, req: TestRuleRequest): (r: Outcome<AlertTestResult>)
    ensures r.Success? || r == BadRequest(BadRequestData)
    ensures r.BadRequest? <==> SelectRule(engine, req).None?
    ensures TestRule(engine, req) != Panic ==> r == TestRule(engine, req)
  {
    match SelectRule(engine, req)
    case None => BadRequest(BadRequestData)
    case Some(rule) => ProjectFixed(engine.eval(TestRuleContext(rule)), engine.formatMs)
  }

  /** Only the first alert of the panel is looked at: alerts after it, even
      ones for the same panel, do not change the answer. */
  lemma {:induction false} FirstForPanelIgnoresLater(alerts: seq<Alert>, later: seq<Alert>, panelId: int)
    requires FirstForPanel(alerts, panelId).Some?
    ensures FirstForPanel(alerts + later, panelId) == FirstForPanel(alerts, panelId)
  {
    if alerts[0].panelId != panelId {
      assert (alerts + later)[1..] == alerts[1..] + later;
      FirstForPanelIgnoresLater(alerts[1..], later, panelId);
    }
  }

  /** A rule-construction error on the first alert of the panel is a 400
      even when a later alert of the same panel would convert. */
  lemma NoFallbackToLaterAlerts(engine: RuleEngine, req: TestRuleRequest)
    requires engine.extract(req.dashboard).Ok?
    requires FirstForPanel(engine.extract(req.dashboard).value, req.panelId).Some?
    requires engine.newRule(engine.extract(req.dashboard).value[FirstForPanel(engine.extract(req.dashboard).value, req.panelId).value]).Err?
    ensures TestRule(engine, req) == BadRequest(BadRequestData)
  {
  }

  /** As written, TestRule panics whenever the selected rule's evaluation
      produces no match. */
  lemma TestRulePanicsWithoutMatches(engine: RuleEngine, req: TestRuleRequest)
    requires SelectRule(engine, req).Some?
    requires engine.eval(TestRuleContext(SelectRule(engine, req).value)).matches == []
    ensures TestRule(engine, req) == Panic
    ensures TestRuleFixed(engine, req).Success? && !TestRuleFixed(engine, req).payload.firing
  {
  }
}
